=== FILE: README.md ===
# gen_ai row processor — a Dafny model

The script reads a spreadsheet (CSV, XLS or XLSX) and fills one prompt template per row
from the row's columns. It sends each prompt to Google's Gemini model and stores the
answers, or an error sentinel, in a new column. Then it writes the spreadsheet back out.
This project models the decision logic that sits between the SDK and pandas calls, and proves properties of it:

- **Template check and formatting** (`generate_text_from_row`, first try block). The
  template is split on whitespace, and tokens holding both `{` and `}` have brace
  characters stripped from their ends. Every resulting name must be a row key. Then
  `str.format(**row)` runs. A KeyError stays a KeyError; any other formatting failure
  becomes ValueError.
- **Response normalisation and the exception funnel** (second try block). This is the
  decision tree over `parts`, `text`, `candidates` and `prompt_feedback.block_reason`,
  and the handlers that turn later failures into GeminiAPIError.
- **Format dispatch and error classification** (`load_xls`, `save_xls`). The reader or
  writer is chosen by the lower-cased suffix, writers get `index=False`, and library
  failures become the exception classes callers see.
- **`main`**. The phases are configure, load, process rows, attach the column, save.
  Every fatal failure exits with status 1. Each row appends its text, or the sentinel
  `ERROR_API`, `ERROR_KEY` or `ERROR_UNEXPECTED`. A length guard runs before the column is attached.

Modules: `Outcomes` (Option, Result), `PyErrors` (exception classes and `isinstance`),
`Text` (whitespace, `str.split`, `str.lower`, `endswith`, `in`, and `Join`, a space-join
the program never calls, which exists for the round-trip lemma `Text.SplitJoin`), `Tables`
(rows, tables, column assignment), `Template` (placeholder extraction, the `str.format`
subset), `Gemini`, `Xls`, `Driver`.

The SDK, the pandas readers and writers, and the progress print are parameters:
- A model call is a `CallOutcome`, chosen per row position and prompt.
- A reader or writer is a function from the call it receives (and, for a writer, the table) to an outcome.
- A progress print is an optional exception per row position.

Behaviour of the code as written that the model keeps and proves:

- A placeholder glued to punctuation is required as written. `'{product_name}'` needs
  a column named `'{product_name}'`, and `{name}:` needs a column named `name}:`. So the
  module's own sample prompt fails the pre-check with KeyError on its sample row
  (`Gemini.SamplePromptFailsPreCheck`).
- In the no-parts branch, whitespace-only candidate text is returned. With parts, the
  same text is an error. Text that passes the `strip()` test at app/gemini_handler.py:94
  is returned untrimmed.
- An unsupported save extension raises ValueError inside the try block, and the catch-all
  re-raises it as IOError. The self-test expects ValueError.
- A template ValueError is not a KeyError, so its row gets `ERROR_UNEXPECTED`.
- If the progress print after a successful row raises, the handler its exception class
  reaches appends a second value for that row: `ERROR_API`, `ERROR_KEY` or
  `ERROR_UNEXPECTED`. The length guard then stops the run before saving.
- If the model call itself raises KeyError, the KeyError handler's message reads
  `response`, which was never assigned. UnboundLocalError escapes instead of
  GeminiAPIError, and the row gets `ERROR_UNEXPECTED`.

Where the code and its own comments promise something else, the model follows the code:
- The docstring at app/gemini_handler.py:43-45 names only GeminiAPIError and KeyError.
  Line 63 raises ValueError for a template that `str.format` rejects, and a KeyError
  from the call itself lets UnboundLocalError out of the handler at line 108.
- The comment at main.py:60 says a KeyError means the placeholder is bad. A malformed
  template that passes the pre-check raises ValueError instead, and its row gets
  `ERROR_UNEXPECTED`.

## Model

| member | source | states |
|---|---|---|
| Text.Split | app/gemini_handler.py:54 | `prompt_template.split()`: every word is non-empty and free of whitespace |
| Text.SplitKeepsText | app/gemini_handler.py:54 | splitting loses only whitespace: the words glued together are the template's non-whitespace characters in order |
| Text.SplitJoin | app/gemini_handler.py:54 | round trip: joining valid words with single spaces and splitting again gives the same words |
| Text.SplitAtWhitespace | app/gemini_handler.py:54 | splitting distributes over any whitespace character (space, tab, newline, ...): the words of the left part, then those of the right, so every whitespace character ends a word |
| Text.WordBetweenWhitespace | app/gemini_handler.py:54 | a non-empty word free of whitespace, with a whitespace character on each side, is one of the tokens |
| Text.SplitChars | app/gemini_handler.py:54 | every character of every token occurs in the template |
| Text.SplitIsStable | app/gemini_handler.py:54 | re-splitting the joined tokens gives the same tokens |
| Text.Lower | app/xls_handler.py:18 | `lower()` keeps the length, turns every upper-case letter into its lower-case partner and leaves every other character alone, so no upper-case letter remains |
| Text.LowerIdempotent | app/xls_handler.py:18 | lower-casing a lower-cased path changes nothing |
| Template.StripBounds | app/gemini_handler.py:54 | `strip('{}')` removes the longest runs of braces at each end and nothing else |
| Template.StripBracesIdempotent | app/gemini_handler.py:54 | stripping twice is stripping once |
| Template.StripLeavesUnbraced | app/gemini_handler.py:54 | a token that neither starts nor ends with a brace is kept whole |
| Template.StripRemovesEnclosingBraces | app/gemini_handler.py:54 | braces around a name whose ends are not braces are removed, and only they |
| Template.Placeholders | app/gemini_handler.py:54 | a name is required exactly when some whitespace token of the template holding both `{` and `}` strips to it |
| Template.NamesOf | app/gemini_handler.py:54 | a name is required exactly when some token holding both `{` and `}` strips to it |
| Template.FirstMissing | app/gemini_handler.py:55-57 | no name is reported exactly when every required name is a row key; a reported name is required and missing |
| Template.Scan | app/gemini_handler.py:59 | `str.format` reads the template into pieces; only the last can be a syntax error and every field is a keyword field |
| Template.Render | app/gemini_handler.py:59-61 | a KeyError names a field the row lacks; a success met no syntax error |
| Template.Format | app/gemini_handler.py:59-61 | `template.format(**row)` succeeds exactly when the template has no syntax error and every field is a row key; a KeyError names a missing key |
| Template.RenderOkIff | app/gemini_handler.py:59 | formatting succeeds exactly when there is no syntax error and every field is a row key |
| Template.RenderMissingKey | app/gemini_handler.py:59-61 | a KeyError from formatting names a field that the row lacks, and nothing before it failed |
| Template.RenderShowsValues | app/gemini_handler.py:59 | every substituted value appears verbatim in the prompt |
| Template.FormatBraceFree | app/gemini_handler.py:59 | a template without braces is sent unchanged |
| Template.FormatBraceFreePrefix | app/gemini_handler.py:59 | brace-free text in front of a template is copied unchanged in front of its output |
| Template.FormatKeywordField | app/gemini_handler.py:59 | `{name}` is replaced by the row's value, or fails with KeyError naming `name` |
| Template.StrayClosingBrace | app/gemini_handler.py:59-63 | a `}` that ends a template whose text before it has no braces is a syntax error (ValueError) whatever the row |
| PyErrors.IsInstance | main.py:57-65 | `isinstance` is reflexive and relates a class to a different one only for the three modelled subclasses and their bases |
| PyErrors.IsInstanceOrder | main.py:57-65 | the class test is a partial order: reflexive, antisymmetric and transitive |
| Gemini.KindOf | app/gemini_handler.py:60-110 | the generator raises KeyError only for placeholder failures, ValueError only for other template failures, GeminiAPIError only for failures after formatting, and UnboundLocalError otherwise |
| Gemini.CauseOf | app/gemini_handler.py:104-110 | the handlers are tried in order: a Google API error first, then KeyError, then the catch-all |
| Gemini.RejectBlank | app/gemini_handler.py:94-100 | text is accepted exactly when it does not strip to nothing; otherwise the empty-text error carries the block reason |
| Gemini.Normalise | app/gemini_handler.py:69-102 | no parts: first candidate text if non-empty (even whitespace), else empty/blocked with the reason; parts: non-empty `text` wins over candidates, otherwise the first candidate's text is returned exactly when it is not blank, and blank text is the empty-text error with the reason; a raising read goes to its handler |
| Gemini.NoPartsAcceptsWhitespace | app/gemini_handler.py:78-82 | any non-empty whitespace-only candidate text is returned as is when the response has no parts |
| Gemini.PartsRejectWhitespace | app/gemini_handler.py:88-100 | non-empty whitespace-only `text`, or whitespace-only candidate text when `text` is missing, is the empty-text error when the response has parts |
| Gemini.CallModel | app/gemini_handler.py:65-110 | every failure after formatting is GeminiAPIError, except a KeyError from the call itself; a response's result is Normalise's |
| Gemini.GenerateFromRow | app/gemini_handler.py:47-110 | a returned text is non-empty and was produced by a call |
| Gemini.GenerateFromRowSpec | app/gemini_handler.py:53-67 | a missing name is a KeyError before any call; formatting failures are KeyError or ValueError and send nothing; a sent prompt is the formatted template |
| Gemini.RemoteFailureIsApiError | app/gemini_handler.py:104-106 | once the template fills, a GoogleAPIError or RetryError from the call is GeminiAPIError |
| Gemini.StrippedTokenMustBeColumn | app/gemini_handler.py:54-57 | a stripped candidate token missing from the row fails the row with KeyError and nothing is sent |
| Gemini.QuotedPlaceholderKeptWhole | app/gemini_handler.py:54 | a quoted placeholder keeps its quotes and braces after stripping |
| Gemini.TrailingPunctuationKeepsBrace | app/gemini_handler.py:54 | `{name}:` strips to `name}:` |
| Gemini.QuotedPlaceholderFailsPreCheck | app/gemini_handler.py:54-57 | a quoted placeholder fails the pre-check on every row whose columns are plain names |
| Gemini.PunctuatedPlaceholderFailsPreCheck | app/gemini_handler.py:54-57 | a placeholder followed by punctuation fails the pre-check on every row whose columns are plain names |
| Gemini.SamplePromptFailsPreCheck | app/gemini_handler.py:155-158 | the self-test's prompt fails with KeyError on a row holding exactly its two columns |
| Gemini.ColonAfterPlaceholderFailsPreCheck | app/gemini_handler.py:54-57 | `Ad for {name}: {desc}` fails with KeyError even when both columns exist |
| Gemini.LoneClosingBraceIsTemplateError | app/gemini_handler.py:54-63 | a `}` after a space at the end of an otherwise brace-free template passes the pre-check and fails formatting with ValueError, sending nothing |
| Xls.ReaderFor | app/xls_handler.py:18-22 | the CSV reader exactly for a lower-cased `.csv` suffix, the Excel reader for every other path |
| Xls.ClassifyReadError | app/xls_handler.py:24-32 | FileNotFoundError stays; empty data, any ValueError and the two format messages become ValueError; anything else is re-raised unchanged |
| Xls.LoadXls | app/xls_handler.py:17-32 | the loaded table is the reader's; a failure is the classified reader exception |
| Xls.WriterFor | app/xls_handler.py:51-63 | `.csv`, `.xlsx` (openpyxl) and `.xls` (default engine) by lower-cased suffix, each with `index=False`; no writer otherwise |
| Xls.SuffixesExclusive | app/xls_handler.py:51-59 | at most one of the three suffixes matches |
| Xls.SaveXls | app/xls_handler.py:47-68 | a non-DataFrame is TypeError before any suffix is looked at; success exactly when the chosen writer succeeds; every other failure is IOError |
| Xls.UnsupportedExtensionIsIOError | app/xls_handler.py:60-68 | the self-test's `unsupported.ext` raises IOError, not the ValueError it expects |
| Xls.UpperCaseSuffixSelectsCsv | app/xls_handler.py:18-52 | `OUT.CSV` picks the CSV writer and `DATA.CSV` the CSV reader |
| Xls.DispatchIgnoresCase | app/xls_handler.py:18-59 | paths that lower-case alike pick the same reader and writer |
| Xls.ReaderMatchesWriter | app/xls_handler.py:18-59 | a file the writer accepts is read back as CSV exactly when it was written as CSV |
| Tables.AttachColumn | main.py:68-69 | the column is set to the results row by row, replacing a column of the same name; other cells and the row count are unchanged |
| Tables.AttachKeepsWellFormed | main.py:69 | attaching a column keeps every row's keys equal to the table's columns |
| Driver.Sentinel | main.py:57-65 | GeminiAPIError gives `ERROR_API`, KeyError `ERROR_KEY`, anything else `ERROR_UNEXPECTED` |
| Driver.RowValues | main.py:53-65 | one value per row, the text or the sentinel, plus a second sentinel when the progress print raises after a success |
| Driver.HandleRow | main.py:53-65 | one loop iteration appends exactly the row's values |
| Driver.ProcessRows | main.py:48-65 | the results are every row's values, concatenated in table order |
| Driver.FlattenInOrder | main.py:52-55 | row i's values sit in the results right after those of the rows before it |
| Driver.ResultsLength | main.py:52-73 | at least one value per row, and exactly one per row exactly when no progress print failed after a success |
| Driver.ResultsOnePerRow | main.py:52-69 | without second appends, `results[i]` is row i's text or sentinel |
| Driver.Run | main.py:20-85 | configuration failure exits 1 before loading; load failure exits 1 before any row; the guard exits 1 exactly on a count mismatch, and otherwise the column is attached and the frame saved; status 0 exactly when the save succeeds |
| Driver.RemoteDownGivesApiErrors | main.py:57-59 | when every call fails remotely and the template fills, every row gets `ERROR_API` |
| Driver.LoneClosingBraceGivesUnexpected | main.py:63-65 | a template that is brace-free text followed by a space and a `}` gives every row `ERROR_UNEXPECTED` |
| Driver.ProgressFaultAbortsRun | main.py:55-73 | a failing progress print after a success makes the run exit 1 at the guard, before saving |
| Driver.ExitCodeIgnoresModel | main.py:57-85 | without failing progress prints, the exit status does not depend on the model's answers when the writer's outcome does not depend on the table |

## Left out

- Google SDK calls (`configure`, `GenerativeModel`, `generate_content`): a call's outcome is a parameter, per row position and prompt. `configure_gemini` is reduced to the exception it raises, if any.
- pandas readers and writers and the CSV/Excel byte formats: the reader and writer are parameters. A table is a column list plus string-valued row maps, so a value is substituted into the prompt as the string it already is (pandas would apply `str()` to numbers).
- argparse, printing and every error-message string, including the re-wrapping at app/gemini_handler.py:109. The model keeps which handler fires, not the message.
- Driver.Run: only the progress print at main.py:56 may raise; every other print is assumed to succeed. The row index is used only in messages and is not modelled.
- Gemini.Normalise: the exceptions raised at app/gemini_handler.py:84 and 100 keep their cause instead of being re-wrapped by the catch-all at 109-110. The class, GeminiAPIError, is the same either way. Reads of `prompt_feedback` are assumed not to raise.
- Template.Scan: a field using conversion, format-spec, attribute or index syntax (`!`, `:`, `.`, `[`) stops with an `Unsupported` syntax error. The model therefore gives such a template the ValueError path: `TemplateError`, then `ERROR_UNEXPECTED`. Python's `str.format` behaves differently. It first looks up the name before the first of those characters, after checking only the conversion syntax. So when that name is missing from the row, Python raises KeyError and the row gets `ERROR_KEY` (for example `{m: >10}` on a row without `m`, which the whitespace pre-check does not catch). When the name is present, Python renders the field or raises its own ValueError. Python's field grammar (conversions, nested format specs, attribute and index chains) is not modelled.
- Template.Scan: a field is positional only when it is made of ASCII digits `0-9`. Python also reads a field made wholly of other Unicode decimal digits (such as `{٣}`) as a positional index, which raises IndexError, re-raised as ValueError, so its row gets `ERROR_UNEXPECTED`. The model treats such a field as a keyword and formats it from the row. Modelling the Unicode decimal-digit table is out of scope.
- Text.Lower: only ASCII letters are lower-cased. The suffixes compared (`.csv`, `.xls`, `.xlsx`) are ASCII, but a non-ASCII path could lower-case differently in Python.
- The `if __name__ == '__main__'` self-test blocks: they are cited only for the behaviour they expect.

=== FILE: driver.dfy ===
/** `main()`: configure → load → process every row → attach the column → save,
    with exit status 1 for any fatal phase failure and sentinel strings for rows
    whose generation fails. */
module Driver {
  import opened Outcomes
  import opened PyErrors
  import opened Text
  import opened Tables
  import opened Template
  import opened Gemini
  import opened Xls

  const ERROR_API := "ERROR_API"
  const ERROR_KEY := "ERROR_KEY"
  const ERROR_UNEXPECTED := "ERROR_UNEXPECTED"

  /** The value the row loop's except clauses append, tried in order. */
  function Sentinel(kind: ErrorKind): (s: string)
    ensures s in {ERROR_API, ERROR_KEY, ERROR_UNEXPECTED}
    ensures s == ERROR_API <==> IsInstance(kind, GeminiApiError)
    ensures s == ERROR_KEY <==> IsInstance(kind, KeyError)
  {
    if IsInstance(kind, GeminiApiError) then ERROR_API
    else if IsInstance(kind, KeyError) then ERROR_KEY
    else ERROR_UNEXPECTED
  }

  /** The command-line arguments. */
  datatype Args = Args(inputFile: string, outputFile: string, template: string, newColumn: string)

  /** Everything `main` gets from outside the script. */
  datatype World = World(
    config: Option<ErrorKind>,                 // the exception configure_gemini raises, if any
    read: ReaderCall -> ReadOutcome,           // the pandas readers
    model: nat -> string -> CallOutcome,       // the model's answer to the call made for row i
    progress: nat -> Option<ErrorKind>,        // the exception the progress print for row i raises, if any
    write: (WriterCall, Table) -> WriteOutcome) // the pandas writers

  /** What one iteration of the row loop appends: the text (and a second value when the
      progress print then raises), or one sentinel. */
  function RowValues(g: Generation, printFault: Option<ErrorKind>): (vs: seq<string>)
    ensures 1 <= |vs| <= 2
    ensures |vs| == 2 <==> g.outcome.Ok? && printFault.Some?
    ensures g.outcome.Ok? ==> vs[0] == g.outcome.value
    ensures g.outcome.Err? ==> vs == [Sentinel(KindOf(g.outcome.error))]
    ensures |vs| == 2 ==> vs[1] == Sentinel(printFault.value)
  {
    match g.outcome
    case Ok(text) => [text] + (if printFault.Some? then [Sentinel(printFault.value)] else [])
    case Err(f) => [Sentinel(KindOf(f))]
  }

  /** The values each row appends, in table order. */
  function RowChunks(rows: seq<Row>, template: string, w: World): (chunks: seq<seq<string>>)
    ensures |chunks| == |rows|
    ensures forall i :: 0 <= i < |rows| ==>
              chunks[i] == RowValues(GenerateFromRow(rows[i], template, w.model(i)), w.progress(i))
  {
    seq(|rows|, i requires 0 <= i < |rows| => RowValues(GenerateFromRow(rows[i], template, w.model(i)), w.progress(i)))
  }

  /** The chunks appended one after the other. */
  function Flatten<T>(chunks: seq<seq<T>>): seq<T> {
    if chunks == [] then [] else Flatten(chunks[..|chunks| - 1]) + chunks[|chunks| - 1]
  }

  /** One iteration of the row loop (main.py:53-65): call the generator, append its text
      and print progress, or append the sentinel of the exception that escaped. */
  method HandleRow(row: Row, i: nat, template: string, w: World) returns (appended: seq<string>)
    ensures appended == RowValues(GenerateFromRow(row, template, w.model(i)), w.progress(i))
  {
    var g := GenerateFromRow(row, template, w.model(i));
    match g.outcome {
      case Ok(text) =>
        appended := [text];
        var fault := w.progress(i);
        if fault.Some? {
          appended := appended + [Sentinel(fault.value)];
        }
      case Err(f) =>
        appended := [Sentinel(KindOf(f))];
    }
  }

  /** The row loop of main.py:48-65: every row's values are appended, in table order. */
  method ProcessRows(rows: seq<Row>, template: string, w: World) returns (results: seq<string>)
    ensures results == Flatten(RowChunks(rows, template, w))
  {
    ghost var chunks := RowChunks(rows, template, w);
    results := [];
    var i := 0;
    while i < |rows|
      invariant 0 <= i <= |rows|
      invariant results == Flatten(chunks[..i])
    {
      var appended := HandleRow(rows[i], i, template, w);
      assert chunks[..i + 1][..i] == chunks[..i];
      results := results + appended;
      i := i + 1;
    }
    assert chunks[..|rows|] == chunks;
  }

  // ---------------------------------------------------------------------------
  // Length and order of the results list
  // ---------------------------------------------------------------------------

  /** The number of values in all chunks together. */
  function TotalLength<T>(chunks: seq<seq<T>>): nat {
    if chunks == [] then 0 else TotalLength(chunks[..|chunks| - 1]) + |chunks[|chunks| - 1]|
  }

  lemma {:induction false} FlattenLength<T>(chunks: seq<seq<T>>)
    ensures |Flatten(chunks)| == TotalLength(chunks)
    decreases |chunks|
  {
    if chunks != [] {
      FlattenLength(chunks[..|chunks| - 1]);
    }
  }

  /** With chunks of one or two values, there are as many values as chunks exactly when no chunk has two. */
  lemma {:induction false} TotalLengthOfSmallChunks<T>(chunks: seq<seq<T>>)
    requires forall k :: 0 <= k < |chunks| ==> 1 <= |chunks[k]| <= 2
    ensures TotalLength(chunks) >= |chunks|
    ensures TotalLength(chunks) == |chunks| <==> forall k :: 0 <= k < |chunks| ==> |chunks[k]| == 1
    decreases |chunks|
  {
    if chunks != [] {
      var init := chunks[..|chunks| - 1];
      assert forall k :: 0 <= k < |init| ==> init[k] == chunks[k];
      TotalLengthOfSmallChunks(init);
    }
  }

  lemma {:induction false} FlattenPrefix<T>(chunks: seq<seq<T>>, m: nat)
    requires m <= |chunks|
    ensures Flatten(chunks[..m]) <= Flatten(chunks)
    decreases |chunks| - m
  {
    if m < |chunks| {
      var init := chunks[..|chunks| - 1];
      assert init[..m] == chunks[..m];
      FlattenPrefix(init, m);
      assert Flatten(chunks) == Flatten(init) + chunks[|chunks| - 1];
    } else {
      assert chunks[..m] == chunks;
    }
  }

  /** Chunk `i` sits in the flattened sequence right after the chunks before it. */
  lemma FlattenInOrder<T>(chunks: seq<seq<T>>, i: nat)
    requires i < |chunks|
    ensures var at := |Flatten(chunks[..i])|;
            var all := Flatten(chunks);
            at + |chunks[i]| <= |all| && all[at..at + |chunks[i]|] == chunks[i]
  {
    FlattenPrefix(chunks, i + 1);
    var upto := chunks[..i + 1];
    assert upto[..i] == chunks[..i];
    assert Flatten(upto) == Flatten(chunks[..i]) + chunks[i];
  }

  /** When every chunk is a single value, the flattened sequence lists them one per chunk. */
  lemma {:induction false} FlattenSingletons<T>(chunks: seq<seq<T>>)
    requires forall k :: 0 <= k < |chunks| ==> |chunks[k]| == 1
    ensures |Flatten(chunks)| == |chunks|
    ensures forall k :: 0 <= k < |chunks| ==> Flatten(chunks)[k] == chunks[k][0]
    decreases |chunks|
  {
    if chunks != [] {
      var init := chunks[..|chunks| - 1];
      assert forall k :: 0 <= k < |init| ==> init[k] == chunks[k];
      FlattenSingletons(init);
    }
  }

  /** Row `i` appends two values: its text, then a sentinel for the failed progress print. */
  predicate Doubled(rows: seq<Row>, template: string, w: World, i: nat)
    requires i < |rows|
  {
    GenerateFromRow(rows[i], template, w.model(i)).outcome.Ok? && w.progress(i).Some?
  }

  /** A failing row never stops the loop: there is at least one value per row, and the
      length guard passes exactly when no row appended twice. */
  lemma ResultsLength(rows: seq<Row>, template: string, w: World)
    ensures |Flatten(RowChunks(rows, template, w))| >= |rows|
    ensures |Flatten(RowChunks(rows, template, w))| == |rows| <==>
              forall i :: 0 <= i < |rows| ==> !Doubled(rows, template, w, i)
  {
    var chunks := RowChunks(rows, template, w);
    FlattenLength(chunks);
    TotalLengthOfSmallChunks(chunks);
    assert forall i :: 0 <= i < |rows| ==> (|chunks[i]| == 1 <==> !Doubled(rows, template, w, i));
  }

  /** When no row appended twice, results[i] is row i's text or its sentinel. */
  lemma ResultsOnePerRow(rows: seq<Row>, template: string, w: World)
    requires forall i :: 0 <= i < |rows| ==> !Doubled(rows, template, w, i)
    ensures |Flatten(RowChunks(rows, template, w))| == |rows|
    ensures forall i :: 0 <= i < |rows| ==>
              Flatten(RowChunks(rows, template, w))[i] == RowValues(GenerateFromRow(rows[i], template, w.model(i)), None)[0]
  {
    var chunks := RowChunks(rows, template, w);
    assert forall k :: 0 <= k < |chunks| ==> |chunks[k]| == 1 by {
      forall k | 0 <= k < |chunks| ensures |chunks[k]| == 1 {
        assert !Doubled(rows, template, w, k);
      }
    }
    FlattenSingletons(chunks);
  }

  // ---------------------------------------------------------------------------
  // The phases of main()
  // ---------------------------------------------------------------------------

  datatype Phase = Configure | Load | Attach | Save

  /** How `main` ends: normally, through `sys.exit(1)` in a phase, or with an uncaught exception. */
  datatype Status = Completed | Exited(phase: Phase) | Crashed(phase: Phase, kind: ErrorKind)

  /** The process exit status; Python exits with 1 on an uncaught exception too. */
  function ExitCode(s: Status): int {
    if s.Completed? then 0 else 1
  }

  /** What a run did: how it ended, which reader it called, the results list it built,
      and the save it attempted. */
  datatype Report = Report(
    status: Status,
    reader: Option<ReaderCall>,
    results: Option<seq<string>>,
    save: Option<SaveRun>)

  function Run(args: Args, w: World): (rep: Report)
    // Configuration failure: exit 1 before any file is read or any row processed.
    ensures w.config.Some? ==> ExitCode(rep.status) == 1 && rep.reader.None? && rep.results.None? && rep.save.None?
    ensures w.config.None? ==> rep.reader == Some(ReaderFor(args.inputFile))
    // Load failure: exit 1 before any row is processed.
    ensures w.config.None? && LoadXls(args.inputFile, w.read).Err? ==>
              rep.status == Exited(Load) && rep.results.None? && rep.save.None?
    // Every row of the loaded table is processed, in order.
    ensures w.config.None? && LoadXls(args.inputFile, w.read).Ok? ==>
              var t := LoadXls(args.inputFile, w.read).value;
              && rep.results == Some(Flatten(RowChunks(t.rows, args.template, w)))
              && (rep.status == Exited(Attach) <==> |rep.results.value| != |t.rows|)
              // A passing guard attaches the column and saves the frame.
              && (|rep.results.value| == |t.rows| ==>
                    rep.save == Some(SaveXls(Frame(AttachColumn(t, args.newColumn, rep.results.value)), args.outputFile, w.write)))
              && (rep.save.Some? ==>
                    |rep.results.value| == |t.rows| &&
                    rep.save.value == SaveXls(Frame(AttachColumn(t, args.newColumn, rep.results.value)), args.outputFile, w.write))
    // Exit 0 exactly when the save succeeded, which needs every earlier phase to have succeeded.
    ensures ExitCode(rep.status) == 0 <==> rep.save.Some? && rep.save.value.result.Ok?
    ensures rep.save.Some? ==> w.config.None? && LoadXls(args.inputFile, w.read).Ok? && rep.results.Some?
  {
    match w.config
    case Some(k) =>
      var status := if IsInstance(k, ValueError) || IsInstance(k, GeminiApiError) then Exited(Configure) else Crashed(Configure, k);
      Report(status, None, None, None)
    case None =>
      var reader := Some(ReaderFor(args.inputFile));
      match LoadXls(args.inputFile, w.read)
      case Err(_) => Report(Exited(Load), reader, None, None)
      case Ok(t) =>
        var results := Flatten(RowChunks(t.rows, args.template, w));
        if |results| != |t.rows| then Report(Exited(Attach), reader, Some(results), None)
        else
          var s := SaveXls(Frame(AttachColumn(t, args.newColumn, results)), args.outputFile, w.write);
          Report(if s.result.Ok? then Completed else Exited(Save), reader, Some(results), Some(s))
  }

  // ---------------------------------------------------------------------------
  // Consequences for whole runs
  // ---------------------------------------------------------------------------

  /** When the service fails every call with GoogleAPIError or RetryError and the template fills
      for every row, every row gets ERROR_API and the column can be attached. */
  lemma RemoteDownGivesApiErrors(rows: seq<Row>, template: string, w: World)
    requires forall i, prompt :: w.model(i)(prompt).CallRaised? && IsInstance(w.model(i)(prompt).kind, GoogleApiError)
    requires forall i :: 0 <= i < |rows| ==> FirstMissing(Placeholders(template), rows[i]).None? && Format(template, rows[i]).Ok?
    ensures |Flatten(RowChunks(rows, template, w))| == |rows|
    ensures forall i :: 0 <= i < |rows| ==> Flatten(RowChunks(rows, template, w))[i] == ERROR_API
  {
    forall i | 0 <= i < |rows|
      ensures GenerateFromRow(rows[i], template, w.model(i)).outcome == Err(GeminiApi(RemoteFailure))
    {
      RemoteFailureIsApiError(rows[i], template, w.model(i));
    }
    ResultsOnePerRow(rows, template, w);
  }

  /** Brace-free text followed by a space and a closing brace gives every row ERROR_UNEXPECTED, whatever the service
      does: the template error is re-raised as ValueError, which only the catch-all handles. */
  lemma LoneClosingBraceGivesUnexpected(rows: seq<Row>, text: string, w: World)
    requires forall i :: 0 <= i < |text| ==> NotBrace(text[i])
    ensures |Flatten(RowChunks(rows, text + " }", w))| == |rows|
    ensures forall i :: 0 <= i < |rows| ==> Flatten(RowChunks(rows, text + " }", w))[i] == ERROR_UNEXPECTED
  {
    forall i | 0 <= i < |rows|
      ensures GenerateFromRow(rows[i], text + " }", w.model(i)).outcome == Err(TemplateError(Malformed))
    {
      LoneClosingBraceIsTemplateError(rows[i], text, w.model(i));
    }
    ResultsOnePerRow(rows, text + " }", w);
  }

  /** A progress print that raises after a successful row appends a second value, so the
      length check fails and the run exits with status 1 before saving. */
  lemma ProgressFaultAbortsRun(args: Args, w: World, i: nat)
    requires w.config.None? && LoadXls(args.inputFile, w.read).Ok?
    requires i < |LoadXls(args.inputFile, w.read).value.rows|
    requires Doubled(LoadXls(args.inputFile, w.read).value.rows, args.template, w, i)
    ensures Run(args, w).status == Exited(Attach)
    ensures ExitCode(Run(args, w).status) == 1 && Run(args, w).save.None?
  {
    ResultsLength(LoadXls(args.inputFile, w.read).value.rows, args.template, w);
  }

  /** The writer's outcome depends on the call only, not on the table written. */
  ghost predicate IgnoresTable(write: (WriterCall, Table) -> WriteOutcome) {
    forall call, t1, t2 :: write(call, t1) == write(call, t2)
  }

  /** Without progress-print failures the column is always attached, so when the writer's
      outcome does not depend on the table, the exit status does not depend on what the
      model answers: row failures never change it. */
  lemma ExitCodeIgnoresModel(args: Args, w: World, model: nat -> string -> CallOutcome)
    requires forall i :: w.progress(i).None?
    requires IgnoresTable(w.write)
    ensures ExitCode(Run(args, w).status) == ExitCode(Run(args, w.(model := model)).status)
  {
    var w2 := w.(model := model);
    if w.config.None? && LoadXls(args.inputFile, w.read).Ok? {
      var t := LoadXls(args.inputFile, w.read).value;
      ResultsLength(t.rows, args.template, w);
      ResultsLength(t.rows, args.template, w2);
      var r1 := Flatten(RowChunks(t.rows, args.template, w));
      var r2 := Flatten(RowChunks(t.rows, args.template, w2));
      var s1 := SaveXls(Frame(AttachColumn(t, args.newColumn, r1)), args.outputFile, w.write);
      var s2 := SaveXls(Frame(AttachColumn(t, args.newColumn, r2)), args.outputFile, w.write);
      assert s1.result.Ok? == s2.result.Ok?;
    }
  }
}

=== FILE: gemini.dfy ===
/** `generate_text_from_row`: template pre-check and formatting, one call to the
    generative model, normalisation of the response's shape, and the funnel that turns
    every failure after formatting into GeminiAPIError. */
module Gemini {
  import opened Outcomes
  import opened PyErrors
  import opened Text
  import opened Tables
  import opened Template

  /** Reading an attribute of the SDK response: its value, or the exception the read raises. */
  datatype Probe<+T> = Value(value: T) | Raises(kind: ErrorKind)

  /** The parts of a GenerateContentResponse the handler inspects. */
  datatype Response = Response(
    hasParts: Probe<bool>,                // truthiness of `response.parts`
    text: Probe<string>,                  // `response.text`; an AttributeError makes `hasattr` false
    candidates: seq<Option<seq<string>>>, // per candidate, the texts of its content's parts (None: no content)
    blockReason: Option<string>)          // `prompt_feedback.block_reason`, when both are truthy

  /** What `GenerativeModel(model_name).generate_content(prompt)` does: answer, or raise. */
  datatype CallOutcome = Responded(response: Response) | CallRaised(kind: ErrorKind)

  /** Why a GeminiAPIError was raised. */
  datatype ApiCause =
    | RemoteFailure                        // GoogleAPIError or RetryError
    | ResponseKeyError                     // KeyError while reading the response
    | UnexpectedFailure                    // any other exception after formatting
    | EmptyOrBlocked(reason: Option<string>) // no parts and no usable candidate text
    | BlankText(reason: Option<string>)      // parts exist but the text is empty or whitespace

  /** The exceptions `generate_text_from_row` raises. */
  datatype GenFailure =
    | MissingPlaceholder(name: string)    // the pre-check's KeyError
    | FormatKeyError(name: string)        // KeyError raised by str.format itself
    | TemplateError(syntax: SyntaxError)  // any other formatting failure, re-raised as ValueError
    | GeminiApi(cause: ApiCause)
    | ResponseUnbound                     // the call raised KeyError, and that handler's message reads `response` before it was assigned

  /** The class of the exception the caller sees. */
  function KindOf(f: GenFailure): (k: ErrorKind)
    ensures IsInstance(k, KeyError) <==> f.MissingPlaceholder? || f.FormatKeyError?
    ensures IsInstance(k, ValueError) <==> f.TemplateError?
    ensures IsInstance(k, GeminiApiError) <==> f.GeminiApi?
    ensures !IsInstance(k, GeminiApiError) && !IsInstance(k, KeyError) && !IsInstance(k, ValueError) <==> f.ResponseUnbound?
  {
    match f
    case MissingPlaceholder(_) => KeyError
    case FormatKeyError(_) => KeyError
    case TemplateError(_) => ValueError
    case GeminiApi(_) => GeminiApiError
    case ResponseUnbound => UnboundLocalError
  }

  /** The handler an exception raised while reading the response reaches. */
  function CauseOf(kind: ErrorKind): (c: ApiCause)
    // The handlers are tried in order: the Google API errors, then KeyError, then the catch-all.
    ensures c == RemoteFailure <==> IsInstance(kind, GoogleApiError)
    ensures c == ResponseKeyError <==> IsInstance(kind, KeyError) && !IsInstance(kind, GoogleApiError)
    ensures c == UnexpectedFailure <==> !IsInstance(kind, GoogleApiError) && !IsInstance(kind, KeyError)
  {
    if IsInstance(kind, GoogleApiError) then RemoteFailure
    else if IsInstance(kind, KeyError) then ResponseKeyError
    else UnexpectedFailure
  }

  /** `candidates[0].content.parts[0].text` when the first candidate has content with parts. */
  function FirstCandidateText(candidates: seq<Option<seq<string>>>): Option<string> {
    if |candidates| > 0 && candidates[0].Some? && |candidates[0].value| > 0
    then Some(candidates[0].value[0])
    else None
  }

  /** The candidate fallback of the parts branch: its text, or "" when there is none. */
  function CandidateOrEmpty(r: Response): string {
    match FirstCandidateText(r.candidates)
    case Some(t) => t
    case None => []
  }

  /** The parts branch's final check: text that strips to nothing is an error. */
  function RejectBlank(text: string, reason: Option<string>): (r: Result<string, ApiCause>)
    ensures r.Ok? <==> !AllSpace(text)
    ensures r.Ok? ==> r.value == text
    ensures r.Err? ==> r.error == BlankText(reason)
  {
    if AllSpace(text) then Err(BlankText(reason)) else Ok(text)
  }

  /** Extracts the generated text from a response, or says why there is none
      (app/gemini_handler.py:69-102). */
  function Normalise(r: Response): (out: Result<string, ApiCause>)
    // No parts: the first candidate's first part is returned when non-empty, even if it is whitespace.
    ensures r.hasParts == Value(false) ==>
              && (out.Ok? <==> FirstCandidateText(r.candidates).Some? && FirstCandidateText(r.candidates).value != [])
              && (out.Ok? ==> Some(out.value) == FirstCandidateText(r.candidates))
              && (out.Err? ==> out.error == EmptyOrBlocked(r.blockReason))
    // Parts: the result is never blank.
    ensures r.hasParts == Value(true) && out.Ok? ==> !AllSpace(out.value)
    // Parts: a non-empty `response.text` wins over the candidates.
    ensures r.hasParts == Value(true) && r.text.Value? && r.text.value != [] ==>
              && (out.Ok? <==> !AllSpace(r.text.value))
              && (out.Ok? ==> out.value == r.text.value)
              && (out.Err? ==> out.error == BlankText(r.blockReason))
    // Parts: without usable `response.text`, the candidate text decides.
    ensures r.hasParts == Value(true) && (r.text == Raises(AttributeError) || r.text == Value([])) ==>
              && (out.Ok? <==> FirstCandidateText(r.candidates).Some? && !AllSpace(FirstCandidateText(r.candidates).value))
              && (out.Ok? ==> Some(out.value) == FirstCandidateText(r.candidates))
              && (out.Err? ==> out.error == BlankText(r.blockReason))
    // A read that raises (other than `hasattr`'s AttributeError) is classified by its handler.
    ensures r.hasParts.Raises? ==> out == Err(CauseOf(r.hasParts.kind))
    ensures r.hasParts == Value(true) && r.text.Raises? && r.text.kind != AttributeError ==>
              out == Err(CauseOf(r.text.kind))
    ensures out.Ok? ==> out.value != []
  {
    match r.hasParts
    case Raises(k) => Err(CauseOf(k))
    case Value(false) =>
      var c := FirstCandidateText(r.candidates);
      if c.Some? && c.value != [] then Ok(c.value) else Err(EmptyOrBlocked(r.blockReason))
    case Value(true) =>
      match r.text
      case Raises(k) =>
        if k == AttributeError then RejectBlank(CandidateOrEmpty(r), r.blockReason) else Err(CauseOf(k))
      case Value(t) =>
        RejectBlank(if t != [] then t else CandidateOrEmpty(r), r.blockReason)
  }

  /** The second try block (app/gemini_handler.py:65-110): every failure becomes GeminiAPIError,
      except a KeyError raised by the call itself, whose handler then fails on the unassigned `response`. */
  function CallModel(outcome: CallOutcome): (r: Result<string, GenFailure>)
    ensures r.Err? ==> r.error.GeminiApi? || r.error.ResponseUnbound?
    ensures r == Err(ResponseUnbound) <==> outcome.CallRaised? && IsInstance(outcome.kind, KeyError)
    ensures outcome.CallRaised? && !IsInstance(outcome.kind, KeyError) ==> r == Err(GeminiApi(CauseOf(outcome.kind)))
    ensures outcome.Responded? ==> (r.Ok? <==> Normalise(outcome.response).Ok?)
    ensures outcome.Responded? && r.Ok? ==> Normalise(outcome.response) == Ok(r.value)
    ensures outcome.Responded? && r.Err? ==> r.error == GeminiApi(Normalise(outcome.response).error)
  {
    match outcome
    case CallRaised(k) =>
      if IsInstance(k, KeyError) then Err(ResponseUnbound) else Err(GeminiApi(CauseOf(k)))
    case Responded(resp) =>
      match Normalise(resp)
      case Ok(text) => Ok(text)
      case Err(cause) => Err(GeminiApi(cause))
  }

  /** One call of `generate_text_from_row`: its return value or exception, and the prompt
      sent to the model (None when no call was made). */
  datatype Generation = Generation(outcome: Result<string, GenFailure>, sent: Option<string>)

  function GenerateFromRow(row: Row, template: string, model: string -> CallOutcome): (g: Generation)
    ensures g.outcome.Ok? ==> g.outcome.value != [] && g.sent.Some?
  {
    match FirstMissing(Placeholders(template), row)
    case Some(n) => Generation(Err(MissingPlaceholder(n)), None)
    case None =>
      match Format(template, row)
      case Err(MissingKey(n)) =>
        RenderMissingKey(Scan(template), row, n);
        Generation(Err(FormatKeyError(n)), None)
      case Err(BadSyntax(e)) => Generation(Err(TemplateError(e)), None)
      case Ok(prompt) => Generation(CallModel(model(prompt)), Some(prompt))
  }

  /** The contract of `generate_text_from_row`. */
  lemma GenerateFromRowSpec(row: Row, template: string, model: string -> CallOutcome)
    ensures var g := GenerateFromRow(row, template, model);
      // The pre-check: a required name missing from the row is a KeyError, and nothing is sent.
      && ((exists n :: n in Placeholders(template) && n !in row) <==> g.outcome.Err? && g.outcome.error.MissingPlaceholder?)
      && (g.outcome.Err? && g.outcome.error.MissingPlaceholder? ==>
            g.outcome.error.name in Placeholders(template) && g.outcome.error.name !in row && g.sent == None)
      // Formatting failures are KeyError or ValueError, never GeminiAPIError, and nothing is sent.
      && (g.sent.None? <==> g.outcome.Err? && KindOf(g.outcome.error) in {KeyError, ValueError})
      && (g.outcome.Err? && g.outcome.error.TemplateError? ==>
            (forall n :: n in Placeholders(template) ==> n in row)
            && Format(template, row) == Err(BadSyntax(g.outcome.error.syntax)))
      && (g.outcome.Err? && g.outcome.error.FormatKeyError? ==>
            Format(template, row) == Err(MissingKey(g.outcome.error.name)) && g.outcome.error.name !in row)
      // Once the prompt is sent, it is the formatted template and the call decides the outcome.
      && (g.sent.Some? ==>
            && (forall n :: n in Placeholders(template) ==> n in row)
            && Format(template, row) == Ok(g.sent.value)
            && g.outcome == CallModel(model(g.sent.value)))
  {
    match FirstMissing(Placeholders(template), row)
    case Some(n) =>
    case None =>
      match Format(template, row)
      case Err(MissingKey(n)) =>
        RenderMissingKey(Scan(template), row, n);
      case Err(BadSyntax(e)) =>
      case Ok(prompt) =>
  }

  /** Whitespace-only candidate text is returned when the response has no parts ... */
  lemma NoPartsAcceptsWhitespace(text: Probe<string>, candidates: seq<Option<seq<string>>>, reason: Option<string>)
    requires FirstCandidateText(candidates).Some?
    requires FirstCandidateText(candidates).value != [] && AllSpace(FirstCandidateText(candidates).value)
    ensures Normalise(Response(Value(false), text, candidates, reason)) == Ok(FirstCandidateText(candidates).value)
  {
  }

  /** ... but the same text is an error when the response has parts. */
  lemma PartsRejectWhitespace(text: Probe<string>, candidates: seq<Option<seq<string>>>, reason: Option<string>)
    requires || (text.Value? && text.value != [] && AllSpace(text.value))
             || (text == Raises(AttributeError) && FirstCandidateText(candidates).Some? && AllSpace(FirstCandidateText(candidates).value))
    ensures Normalise(Response(Value(true), text, candidates, reason)) == Err(BlankText(reason))
  {
  }

  /** Once the template fills, a call that raises GoogleAPIError or RetryError becomes GeminiAPIError. */
  lemma RemoteFailureIsApiError(row: Row, template: string, model: string -> CallOutcome)
    requires FirstMissing(Placeholders(template), row).None? && Format(template, row).Ok?
    requires forall prompt :: model(prompt).CallRaised? && IsInstance(model(prompt).kind, GoogleApiError)
    ensures GenerateFromRow(row, template, model) == Generation(Err(GeminiApi(RemoteFailure)), Some(Format(template, row).value))
  {
    assert !IsInstance(model(Format(template, row).value).kind, KeyError);
  }

  // ---------------------------------------------------------------------------
  // What the pre-check really requires
  // ---------------------------------------------------------------------------

  /** Every whitespace-separated token holding both braces must, with its outer braces
      stripped, be a column of the row: otherwise the row fails with KeyError and nothing is sent. */
  lemma StrippedTokenMustBeColumn(row: Row, template: string, model: string -> CallOutcome, token: string)
    requires token in Split(template) && IsCandidate(token)
    requires StripBraces(token) !in row
    ensures GenerateFromRow(row, template, model).outcome.Err?
    ensures GenerateFromRow(row, template, model).outcome.error.MissingPlaceholder?
    ensures GenerateFromRow(row, template, model).sent.None?
  {
    assert StripBraces(token) in Placeholders(template);
  }

  /** A placeholder wrapped in quotes is required whole, quotes and braces included. */
  lemma QuotedPlaceholderKeptWhole(q: char, name: string)
    requires NotBrace(q)
    ensures StripBraces([q] + "{" + name + "}" + [q]) == [q] + "{" + name + "}" + [q]
  {
    StripLeavesUnbraced([q] + "{" + name + "}" + [q]);
  }

  /** Punctuation after a placeholder keeps its closing brace: `{name}:` requires the column `name}:`. */
  lemma TrailingPunctuationKeepsBrace(name: string, p: char)
    requires name != [] && NotBrace(name[0]) && NotBrace(p)
    ensures StripBraces("{" + name + "}" + [p]) == name + "}" + [p]
  {
    assert "{" + name + "}" + [p] == "{" + (name + "}" + [p]) + [];
    StripRemovesEnclosingBraces("{", name + "}" + [p], []);
  }

  /** A column name made of non-space, non-brace characters. */
  predicate PlainName(s: string) {
    s != [] && forall i :: 0 <= i < |s| ==> NotSpace(s[i]) && NotBrace(s[i])
  }

  /** `'{name}'`: a placeholder in single quotes. */
  function Quoted(name: string): string {
    "'{" + name + "}'"
  }

  /** A quoted placeholder standing as a word is required with its quotes and braces, so it
      fails the pre-check on every row whose columns are plain names. */
  lemma QuotedPlaceholderFailsPreCheck(row: Row, pre: string, name: string, post: string, model: string -> CallOutcome)
    requires PlainName(name)
    requires forall c :: c in row ==> PlainName(c)
    ensures var g := GenerateFromRow(row, pre + " " + Quoted(name) + " " + post, model);
            g.outcome.Err? && g.outcome.error.MissingPlaceholder? && g.sent.None?
  {
    var token := Quoted(name);
    assert token == ['\''] + "{" + name + "}" + ['\''];
    WordBetweenWhitespace(pre, ' ', token, ' ', post);
    QuotedPlaceholderKeptWhole('\'', name);
    assert !PlainName(token) by {
      assert token[1] == '{';
    }
    StrippedTokenMustBeColumn(row, pre + " " + token + " " + post, model, token);
  }

  /** A placeholder followed by punctuation (`{name}:`) is required as `name}:`, so it fails
      the pre-check on every row whose columns are plain names. */
  lemma PunctuatedPlaceholderFailsPreCheck(row: Row, pre: string, name: string, p: char, post: string, model: string -> CallOutcome)
    requires PlainName(name) && NotSpace(p) && NotBrace(p)
    requires forall c :: c in row ==> PlainName(c)
    ensures var g := GenerateFromRow(row, pre + " " + ("{" + name + "}" + [p]) + " " + post, model);
            g.outcome.Err? && g.outcome.error.MissingPlaceholder? && g.sent.None?
  {
    var token := "{" + name + "}" + [p];
    WordBetweenWhitespace(pre, ' ', token, ' ', post);
    TrailingPunctuationKeepsBrace(name, p);
    assert !PlainName(StripBraces(token)) by {
      assert StripBraces(token)[|name|] == '}';
    }
    StrippedTokenMustBeColumn(row, pre + " " + token + " " + post, model, token);
  }

  /** The module's own sample prompt quotes its placeholders, so it fails the pre-check
      on a row whose columns are exactly the two names it quotes. */
  lemma SamplePromptFailsPreCheck(row: Row, product: string, description: string, model: string -> CallOutcome)
    requires PlainName(product) && PlainName(description)
    requires row.Keys == {product, description}
    ensures var g := GenerateFromRow(row, "Write a short advertisement for a product named" + " " + Quoted(product) + " " + ("which is " + Quoted(description)), model);
            g.outcome.Err? && g.outcome.error.MissingPlaceholder? && g.sent.None?
  {
    QuotedPlaceholderFailsPreCheck(row, "Write a short advertisement for a product named", product, "which is " + Quoted(description), model);
  }

  /** `Ad for {name}: {desc}` requires a column `name}:`, so a row whose columns are the two
      names fails with KeyError. */
  lemma ColonAfterPlaceholderFailsPreCheck(row: Row, name: string, desc: string, model: string -> CallOutcome)
    requires PlainName(name) && PlainName(desc)
    requires row.Keys == {name, desc}
    ensures var g := GenerateFromRow(row, "Ad for" + " " + ("{" + name + "}" + [':']) + " " + ("{" + desc + "}"), model);
            g.outcome.Err? && g.outcome.error.MissingPlaceholder? && g.sent.None?
  {
    PunctuatedPlaceholderFailsPreCheck(row, "Ad for", name, ':', "{" + desc + "}", model);
  }

  /** A closing brace standing alone after brace-free text passes the pre-check (no token
      holds both braces) and then fails formatting, which is re-raised as ValueError, not KeyError. */
  lemma LoneClosingBraceIsTemplateError(row: Row, text: string, model: string -> CallOutcome)
    requires forall i :: 0 <= i < |text| ==> NotBrace(text[i])
    ensures GenerateFromRow(row, text + " }", model) == Generation(Err(TemplateError(Malformed)), None)
  {
    var template := text + " }";
    SplitChars(template);
    assert '{' !in template;
    assert forall t :: t in Split(template) ==> !IsCandidate(t) by {
      forall t | t in Split(template) ensures '{' !in t {
        var k :| 0 <= k < |Split(template)| && Split(template)[k] == t;
        assert forall i :: 0 <= i < |t| ==> Split(template)[k][i] in template;
      }
    }
    assert forall n :: n !in Placeholders(template);
    assert text + " }" == (text + " ") + "}";
    StrayClosingBrace(text + " ", row);
  }
}

=== FILE: outcomes.dfy ===
/** Failure-carrying values shared by every module of the model. */
module Outcomes {

  /** A value that may be absent (Python's `None`). */
  datatype Option<+T> = None | Some(value: T)

  /** The value an operation returns, or the exception it raises. */
  datatype Result<+T, +E> = Ok(value: T) | Err(error: E)
}

=== FILE: pyerrors.dfy ===
/** The exception classes that the orchestration script raises and catches,
    with the part of Python's class hierarchy its `except` clauses rely on. */
module PyErrors {

  datatype ErrorKind =
    | KeyError
    | ValueError
    | EmptyDataError      // pandas.errors.EmptyDataError, a subclass of ValueError
    | TypeError
    | AttributeError
    | IndexError
    | OSError             // IOError is an alias of OSError
    | FileNotFoundError   // a subclass of OSError
    | GoogleApiError      // google.api_core.exceptions.GoogleAPIError
    | RetryError          // google.api_core.exceptions.RetryError, a subclass of GoogleAPIError
    | GeminiApiError      // the script's own GeminiAPIError
    | UnboundLocalError   // a local variable read before it was assigned
    | OtherError          // any other subclass of Exception

  /** `isinstance(e, cls)` for an exception of class `kind`. */
  predicate IsInstance(kind: ErrorKind, cls: ErrorKind): (r: bool)
    ensures kind == cls ==> r
    // The three subclass relations of the library classes.
    ensures kind == EmptyDataError && cls == ValueError ==> r
    ensures kind == FileNotFoundError && cls == OSError ==> r
    ensures kind == RetryError && cls == GoogleApiError ==> r
    // No other class is caught by an except clause naming a different class.
    ensures r && kind != cls ==>
              || (kind == EmptyDataError && cls == ValueError)
              || (kind == FileNotFoundError && cls == OSError)
              || (kind == RetryError && cls == GoogleApiError)
  {
    || kind == cls
    || (kind == EmptyDataError && cls == ValueError)
    || (kind == FileNotFoundError && cls == OSError)
    || (kind == RetryError && cls == GoogleApiError)
  }

  /** The subclass relation is a partial order, as Python's class hierarchy is. */
  lemma IsInstanceOrder(a: ErrorKind, b: ErrorKind, c: ErrorKind)
    ensures IsInstance(a, a)
    ensures IsInstance(a, b) && IsInstance(b, a) ==> a == b
    ensures IsInstance(a, b) && IsInstance(b, c) ==> IsInstance(a, c)
  {
  }
}

=== FILE: tables.dfy ===
/** The in-memory table the script loads, augments with one column and saves
    (a pandas DataFrame with string cells). */
module Tables {

  /** One record: column name to the cell's string form (what `row.to_dict()` feeds to `str.format`). */
  type Row = map<string, string>

  datatype Table = Table(columns: seq<string>, rows: seq<Row>)

  /** Column names are distinct and every row has exactly the table's columns. */
  predicate WellFormed(t: Table) {
    && (forall i, j :: 0 <= i < j < |t.columns| ==> t.columns[i] != t.columns[j])
    && (forall k :: 0 <= k < |t.rows| ==> t.rows[k].Keys == set c | c in t.columns)
  }

  /** `df[name] = values`: an existing column of that name is overwritten in place,
      otherwise a new column is appended after the others. */
  function AttachColumn(t: Table, name: string, values: seq<string>): (r: Table)
    requires |values| == |t.rows|
    ensures |r.rows| == |t.rows|
    ensures name in t.columns ==> r.columns == t.columns
    ensures name !in t.columns ==> r.columns == t.columns + [name]
    ensures forall k :: 0 <= k < |r.rows| ==>
              && r.rows[k].Keys == t.rows[k].Keys + {name}
              && r.rows[k][name] == values[k]
              && (forall c :: c in t.rows[k] && c != name ==> r.rows[k][c] == t.rows[k][c])
  {
    var columns := if name in t.columns then t.columns else t.columns + [name];
    Table(columns, seq(|t.rows|, k requires 0 <= k < |t.rows| => t.rows[k][name := values[k]]))
  }

  /** Attaching a column keeps a well-formed table well formed. */
  lemma AttachKeepsWellFormed(t: Table, name: string, values: seq<string>)
    requires WellFormed(t)
    requires |values| == |t.rows|
    ensures WellFormed(AttachColumn(t, name, values))
  {
    var r := AttachColumn(t, name, values);
    assert (set c | c in r.columns) == (set c | c in t.columns) + {name};
  }
}

=== FILE: template.dfy ===
/** Prompt-template handling in `generate_text_from_row`: the whitespace-token placeholder
    pre-check and the subset of `str.format(**row)` that the model covers. */
module Template {
  import opened Outcomes
  import opened Text
  import opened Tables

  predicate IsBrace(c: char) {
    c == '{' || c == '}'
  }

  predicate NotBrace(c: char) {
    !IsBrace(c)
  }

  // ---------------------------------------------------------------------------
  // Placeholder extraction: the whitespace tokens holding both braces, with braces stripped from their ends
  // ---------------------------------------------------------------------------

  /** The slice `[start, end)` of `token` that `token.strip('{}')` keeps. */
  function StripBounds(token: string): (b: (nat, nat))
    ensures b.0 <= b.1 <= |token|
    ensures forall k :: 0 <= k < b.0 ==> IsBrace(token[k])
    ensures forall k :: b.1 <= k < |token| ==> IsBrace(token[k])
    ensures b.0 < b.1 ==> NotBrace(token[b.0]) && NotBrace(token[b.1 - 1])
  {
    var lead := LeadingWhile(token, IsBrace);
    var trail := TrailingWhile(token[lead..], IsBrace);
    (lead, |token| - trail)
  }

  /** `token.strip('{}')`: braces are removed from both ends and nowhere else. */
  function StripBraces(token: string): string {
    token[StripBounds(token).0..StripBounds(token).1]
  }

  /** A token the pre-check treats as a placeholder: it contains both a `{` and a `}`. */
  predicate IsCandidate(token: string) {
    '{' in token && '}' in token
  }

  function NamesOf(tokens: seq<string>): (names: seq<string>)
    ensures |names| <= |tokens|
    ensures forall n :: n in names <==> exists t :: t in tokens && IsCandidate(t) && StripBraces(t) == n
  {
    if tokens == [] then []
    else
      (if IsCandidate(tokens[0]) then [StripBraces(tokens[0])] else []) + NamesOf(tokens[1..])
  }

  /** The names the pre-check requires the row to have (app/gemini_handler.py:54). */
  function Placeholders(template: string): (names: seq<string>)
    ensures |names| <= |Split(template)|
    ensures forall n :: n in names <==>
              exists t :: t in Split(template) && IsCandidate(t) && StripBraces(t) == n
  {
    NamesOf(Split(template))
  }

  /** The first required name the row lacks; the check loop raises KeyError for it. */
  function FirstMissing(names: seq<string>, row: Row): (r: Option<string>)
    ensures r.None? <==> forall n :: n in names ==> n in row
    ensures r.Some? ==> exists i :: 0 <= i < |names| && names[i] == r.value && r.value !in row
                           && forall j :: 0 <= j < i ==> names[j] in row
  {
    if names == [] then None
    else if names[0] !in row then Some(names[0])
    else
      var r := FirstMissing(names[1..], row);
      assert r.Some? ==> exists i :: 0 <= i < |names| - 1 && names[1..][i] == r.value && r.value !in row
                           && forall j :: 0 <= j < i ==> names[1..][j] in row;
      r
  }

  /** Stripping is idempotent. */
  lemma StripBracesIdempotent(token: string)
    ensures StripBraces(StripBraces(token)) == StripBraces(token)
  {
    var name := StripBraces(token);
    if name != [] {
      assert NotBrace(name[0]);
      assert NotBrace(name[|name| - 1]);
      StripLeavesUnbraced(name);
    }
  }

  /** A token that neither starts nor ends with a brace is kept whole, braces inside included. */
  lemma StripLeavesUnbraced(token: string)
    requires token != [] && NotBrace(token[0]) && NotBrace(token[|token| - 1])
    ensures StripBraces(token) == token
  {
    var b := StripBounds(token);
    assert b.0 == 0;
    assert b.1 == |token|;
  }

  /** Braces around a name are removed, however many there are on each side. */
  lemma StripRemovesEnclosingBraces(open: string, name: string, close: string)
    requires forall k :: 0 <= k < |open| ==> IsBrace(open[k])
    requires forall k :: 0 <= k < |close| ==> IsBrace(close[k])
    requires name != [] && NotBrace(name[0]) && NotBrace(name[|name| - 1])
    ensures StripBraces(open + name + close) == name
  {
    var token := open + name + close;
    var b := StripBounds(token);
    assert token[|open|] == name[0];
    assert token[|open| + |name| - 1] == name[|name| - 1];
    if b.0 < |open| {
      assert false;
    }
    assert b.0 == |open|;
    if b.1 > |open| + |name| {
      assert false;
    }
    assert b.1 == |open| + |name|;
    assert token[|open|..|open| + |name|] == name;
  }

  // ---------------------------------------------------------------------------
  // Formatting: template.format(**row.to_dict())
  // ---------------------------------------------------------------------------

  /** Why `str.format` fails. `MissingKey` is Python's KeyError. A syntax error is
      `Malformed` — the ValueError for a stray `}`, an unmatched `{` or a `{` inside a
      field name, or the IndexError for a positional field (`{}`, `{0}`) when there are
      no positional arguments — or `Unsupported`: a conversion, format-spec, attribute
      or index form, which the model does not cover. */
  datatype SyntaxError = Malformed | Unsupported

  datatype FormatError = MissingKey(name: string) | BadSyntax(syntax: SyntaxError)

  /** The template as str.format reads it, left to right, ending at the first syntax error. */
  datatype Piece = Lit(c: char) | Field(name: string) | Stop(error: SyntaxError)

  predicate IsDigit(c: char) {
    '0' <= c <= '9'
  }

  predicate AllDigits(s: string) {
    forall i :: 0 <= i < |s| ==> IsDigit(s[i])
  }

  /** A field text using conversion (`!`), format spec (`:`), attribute (`.`) or index (`[`) syntax. */
  predicate HasSpecMarker(field: string) {
    ':' in field || '!' in field || '.' in field || '[' in field
  }

  /** A field text that `str.format` looks up as a keyword argument. */
  predicate IsKeywordField(field: string) {
    && field != []
    && !AllDigits(field)
    && !HasSpecMarker(field)
    && forall i :: 0 <= i < |field| ==> NotBrace(field[i])
  }

  function Scan(t: string): (ps: seq<Piece>)
    ensures forall k :: 0 <= k < |ps| - 1 ==> !ps[k].Stop?
    ensures forall k :: 0 <= k < |ps| && ps[k].Field? ==> IsKeywordField(ps[k].name)
    decreases |t|
  {
    if t == [] then []
    else if |t| >= 2 && t[0] == '{' && t[1] == '{' then [Lit('{')] + Scan(t[2..])
    else if |t| >= 2 && t[0] == '}' && t[1] == '}' then [Lit('}')] + Scan(t[2..])
    else if t[0] == '}' then [Stop(Malformed)]
    else if t[0] == '{' then
      var body := t[1..];
      var j := LeadingWhile(body, NotBrace);
      var field := body[..j];
      if j == |body| then [Stop(Malformed)]
      else if HasSpecMarker(field) then [Stop(Unsupported)]
      else if body[j] == '{' then [Stop(Malformed)]
      else if field == [] || AllDigits(field) then [Stop(Malformed)]
      else [Field(field)] + Scan(body[j + 1..])
    else [Lit(t[0])] + Scan(t[1..])
  }

  function Prepend(s: string, r: Result<string, FormatError>): Result<string, FormatError> {
    match r
    case Ok(v) => Ok(s + v)
    case Err(e) => Err(e)
  }

  /** Produces the output piece by piece, failing at the first missing key or syntax error. */
  function Render(ps: seq<Piece>, row: Row): (r: Result<string, FormatError>)
    ensures r.Err? && r.error.MissingKey? ==> r.error.name !in row
    ensures r.Ok? ==> NoStop(ps)
    decreases |ps|
  {
    if ps == [] then Ok([])
    else
      match ps[0]
      case Stop(e) => Err(BadSyntax(e))
      case Field(n) => if n in row then Prepend(row[n], Render(ps[1..], row)) else Err(MissingKey(n))
      case Lit(c) => Prepend([c], Render(ps[1..], row))
  }

  /** `template.format(**row)` for keyword fields and `{{`/`}}` escapes. */
  function Format(template: string, row: Row): (r: Result<string, FormatError>)
    ensures r.Ok? <==> NoStop(Scan(template)) && FieldsIn(Scan(template), row)
    ensures r.Err? && r.error.MissingKey? ==> r.error.name !in row
  {
    RenderOkIff(Scan(template), row);
    Render(Scan(template), row)
  }

  predicate NoStop(ps: seq<Piece>) {
    forall k :: 0 <= k < |ps| ==> !ps[k].Stop?
  }

  predicate FieldsIn(ps: seq<Piece>, row: Row) {
    forall k :: 0 <= k < |ps| && ps[k].Field? ==> ps[k].name in row
  }

  /** Rendering succeeds exactly when no syntax error is reached and every field is a key of the row. */
  lemma {:induction false} RenderOkIff(ps: seq<Piece>, row: Row)
    ensures Render(ps, row).Ok? <==> NoStop(ps) && FieldsIn(ps, row)
    decreases |ps|
  {
    if ps != [] {
      RenderOkIff(ps[1..], row);
      assert forall k :: 1 <= k < |ps| ==> ps[k] == ps[1..][k - 1];
    }
  }

  /** A KeyError names a field of the template that the row lacks, and every field before it is present. */
  lemma {:induction false} RenderMissingKey(ps: seq<Piece>, row: Row, name: string)
    requires Render(ps, row) == Err(MissingKey(name))
    ensures exists k :: 0 <= k < |ps| && ps[k] == Field(name) && name !in row
                        && forall j :: 0 <= j < k ==> !ps[j].Stop? && (ps[j].Field? ==> ps[j].name in row)
    decreases |ps|
  {
    match ps[0]
    case Stop(e) =>
      assert false;
    case Field(n) =>
      if n != name {
        RenderMissingKey(ps[1..], row, name);
        var k :| 0 <= k < |ps| - 1 && ps[1..][k] == Field(name) && name !in row
                 && forall j :: 0 <= j < k ==> !ps[1..][j].Stop? && (ps[1..][j].Field? ==> ps[1..][j].name in row);
        assert ps[k + 1] == Field(name);
      } else if name in row {
        assert false;
      }
    case Lit(c) =>
      RenderMissingKey(ps[1..], row, name);
      var k :| 0 <= k < |ps| - 1 && ps[1..][k] == Field(name) && name !in row
               && forall j :: 0 <= j < k ==> !ps[1..][j].Stop? && (ps[1..][j].Field? ==> ps[1..][j].name in row);
      assert ps[k + 1] == Field(name);
  }

  lemma ContainsPrefix(s: string, sub: string)
    requires |sub| <= |s| && s[..|sub|] == sub
    ensures Contains(s, sub)
  {
  }

  lemma {:induction false} ContainsShift(x: string, s: string, sub: string)
    requires Contains(s, sub)
    ensures Contains(x + s, sub)
    decreases |x|
  {
    if x == [] {
      assert x + s == s;
    } else {
      ContainsShift(x[1..], s, sub);
      assert (x + s)[1..] == x[1..] + s;
    }
  }

  /** Every substituted value appears verbatim in the formatted prompt. */
  lemma {:induction false} RenderShowsValues(ps: seq<Piece>, row: Row, s: string, k: nat)
    requires Render(ps, row) == Ok(s)
    requires k < |ps| && ps[k].Field?
    ensures ps[k].name in row && Contains(s, row[ps[k].name])
    decreases |ps|
  {
    var rest := Render(ps[1..], row);
    assert rest.Ok?;
    match ps[0]
    case Field(n) =>
      assert s == row[n] + rest.value;
      if k == 0 {
        ContainsPrefix(s, row[n]);
      } else {
        RenderShowsValues(ps[1..], row, rest.value, k - 1);
        ContainsShift(row[n], rest.value, row[ps[k].name]);
      }
    case Lit(c) =>
      assert s == [c] + rest.value;
      RenderShowsValues(ps[1..], row, rest.value, k - 1);
      ContainsShift([c], rest.value, row[ps[k].name]);
  }

  /** A template with no braces is sent unchanged, whatever the row. */
  lemma {:induction false} FormatBraceFree(template: string, row: Row)
    requires forall i :: 0 <= i < |template| ==> NotBrace(template[i])
    ensures Format(template, row) == Ok(template)
    decreases |template|
  {
    if template != [] {
      assert NotBrace(template[0]);
      FormatBraceFree(template[1..], row);
      assert [template[0]] + template[1..] == template;
    }
  }

  /** A `{name}` field followed by more template is replaced by the row's value for `name`. */
  lemma FormatKeywordField(name: string, rest: string, row: Row)
    requires IsKeywordField(name)
    ensures Scan("{" + name + "}" + rest) == [Field(name)] + Scan(rest)
    ensures Format("{" + name + "}" + rest, row)
            == if name in row then Prepend(row[name], Format(rest, row)) else Err(MissingKey(name))
  {
    var t := "{" + name + "}" + rest;
    var body := t[1..];
    assert body == name + ("}" + rest);
    LeadingWhileStops(name, "}" + rest, NotBrace);
    assert body[..|name|] == name;
    assert body[|name| + 1..] == rest;
    assert t[0] == '{';
    assert |name| > 0 && t[1] == name[0];
    assert ([Field(name)] + Scan(rest))[1..] == Scan(rest);
  }

  /** Brace-free text in front of a template is copied unchanged in front of its output. */
  lemma {:induction false} FormatBraceFreePrefix(pre: string, rest: string, row: Row)
    requires forall i :: 0 <= i < |pre| ==> NotBrace(pre[i])
    ensures Format(pre + rest, row) == Prepend(pre, Format(rest, row))
    decreases |pre|
  {
    if pre == [] {
      assert pre + rest == rest;
      if Format(rest, row).Ok? {
        assert pre + Format(rest, row).value == Format(rest, row).value;
      }
    } else {
      var t := pre + rest;
      assert t[0] == pre[0] && NotBrace(pre[0]);
      assert t[1..] == pre[1..] + rest;
      FormatBraceFreePrefix(pre[1..], rest, row);
      if Format(rest, row).Ok? {
        assert [pre[0]] + (pre[1..] + Format(rest, row).value) == pre + Format(rest, row).value;
      }
    }
  }

  /** A `}` that does not start `}}`, after brace-free text, is a syntax error whatever the row. */
  lemma StrayClosingBrace(pre: string, row: Row)
    requires forall i :: 0 <= i < |pre| ==> NotBrace(pre[i])
    ensures Format(pre + "}", row) == Err(BadSyntax(Malformed))
  {
    FormatBraceFreePrefix(pre, "}", row);
    assert Scan("}") == [Stop(Malformed)];
  }
}

=== FILE: text.dfy ===
/** Python string operations the script relies on: whitespace as `str.split()` and
    `str.strip()` see it, `str.lower()`, `str.endswith()` and the substring test `in`. */
module Text {

  /** The characters Python's `str.isspace()` accepts; `str.split()` separates on runs of them. */
  predicate IsSpace(c: char) {
    || c == ' '
    || ('\t' <= c <= '\r')
    || ('\U{1C}' <= c <= '\U{1F}')
    || c == '\U{85}' || c == '\U{A0}' || c == '\U{1680}'
    || ('\U{2000}' <= c <= '\U{200A}')
    || c == '\U{2028}' || c == '\U{2029}' || c == '\U{202F}' || c == '\U{205F}' || c == '\U{3000}'
  }

  predicate NotSpace(c: char) {
    !IsSpace(c)
  }

  /** True when `s.strip()` is empty: every character is whitespace (vacuously for ""). */
  predicate AllSpace(s: string) {
    forall i :: 0 <= i < |s| ==> IsSpace(s[i])
  }

  predicate Unspaced(s: string) {
    forall i :: 0 <= i < |s| ==> NotSpace(s[i])
  }

  /** The length of the longest prefix of `s` whose characters all satisfy `p`. */
  function LeadingWhile(s: string, p: char -> bool): (n: nat)
    ensures n <= |s|
    ensures forall i :: 0 <= i < n ==> p(s[i])
    ensures n < |s| ==> !p(s[n])
  {
    if s == [] || !p(s[0]) then 0 else 1 + LeadingWhile(s[1..], p)
  }

  /** The length of the longest suffix of `s` whose characters all satisfy `p`. */
  function TrailingWhile(s: string, p: char -> bool): (n: nat)
    ensures n <= |s|
    ensures forall i :: |s| - n <= i < |s| ==> p(s[i])
    ensures n < |s| ==> !p(s[|s| - 1 - n])
  {
    if s == [] || !p(s[|s| - 1]) then 0 else 1 + TrailingWhile(s[..|s| - 1], p)
  }

  /** The length of the run of non-whitespace characters `s` starts with. */
  function WordLength(s: string): (n: nat)
    ensures n <= |s|
    ensures forall i :: 0 <= i < n ==> NotSpace(s[i])
    ensures n < |s| ==> IsSpace(s[n])
  {
    if s == [] || IsSpace(s[0]) then 0 else 1 + WordLength(s[1..])
  }

  /** `s.split()` with no separator: the maximal runs of non-whitespace characters, in order. */
  function Split(s: string): (words: seq<string>)
    ensures forall k :: 0 <= k < |words| ==> words[k] != [] && Unspaced(words[k])
    decreases |s|
  {
    if s == [] then []
    else if IsSpace(s[0]) then Split(s[1..])
    else
      var n := WordLength(s);
      [s[..n]] + Split(s[n..])
  }

  /** `s` with every whitespace character deleted. */
  function Squeeze(s: string): string {
    if s == [] then [] else (if IsSpace(s[0]) then [] else [s[0]]) + Squeeze(s[1..])
  }

  function Concat(words: seq<string>): string {
    if words == [] then [] else words[0] + Concat(words[1..])
  }

  /** The words joined with single spaces; the program never joins, but the round trip `SplitJoin` is stated with it. */
  function Join(words: seq<string>): string {
    if words == [] then []
    else if |words| == 1 then words[0]
    else words[0] + " " + Join(words[1..])
  }

  lemma {:induction false} SqueezeAppend(a: string, b: string)
    ensures Squeeze(a + b) == Squeeze(a) + Squeeze(b)
    decreases |a|
  {
    if a == [] {
      assert a + b == b;
    } else {
      assert (a + b)[0] == a[0];
      assert (a + b)[1..] == a[1..] + b;
      SqueezeAppend(a[1..], b);
    }
  }

  lemma {:induction false} SqueezeAllSpace(s: string)
    requires AllSpace(s)
    ensures Squeeze(s) == []
    decreases |s|
  {
    if s != [] {
      SqueezeAllSpace(s[1..]);
    }
  }

  lemma {:induction false} SqueezeUnspaced(s: string)
    requires Unspaced(s)
    ensures Squeeze(s) == s
    decreases |s|
  {
    if s != [] {
      assert NotSpace(s[0]);
      SqueezeUnspaced(s[1..]);
    }
  }

  lemma ConcatCons(word: string, words: seq<string>)
    ensures Concat([word] + words) == word + Concat(words)
  {
    assert ([word] + words)[1..] == words;
  }

  lemma SqueezeSplitAt(s: string, k: nat)
    requires k <= |s|
    ensures Squeeze(s) == Squeeze(s[..k]) + Squeeze(s[k..])
  {
    assert s == s[..k] + s[k..];
    SqueezeAppend(s[..k], s[k..]);
  }

  /** Splitting loses only whitespace: the words, glued together, are the non-whitespace
      characters of `s` in their original order. */
  lemma {:induction false} SplitKeepsText(s: string)
    ensures Concat(Split(s)) == Squeeze(s)
    decreases |s|
  {
    if s != [] {
      if IsSpace(s[0]) {
        SplitKeepsText(s[1..]);
      } else {
        var n := WordLength(s);
        SqueezeSplitAt(s, n);
        SqueezeUnspaced(s[..n]);
        SplitKeepsText(s[n..]);
        ConcatCons(s[..n], Split(s[n..]));
      }
    }
  }

  lemma {:induction false} LeadingWhileStops(w: string, tail: string, p: char -> bool)
    requires forall i :: 0 <= i < |w| ==> p(w[i])
    requires tail == [] || !p(tail[0])
    ensures LeadingWhile(w + tail, p) == |w|
    decreases |w|
  {
    if w != [] {
      assert (w + tail)[1..] == w[1..] + tail;
      LeadingWhileStops(w[1..], tail, p);
    }
  }

  lemma {:induction false} WordLengthStops(w: string, tail: string)
    requires Unspaced(w)
    requires tail == [] || IsSpace(tail[0])
    ensures WordLength(w + tail) == |w|
    decreases |w|
  {
    if w != [] {
      assert (w + tail)[0] == w[0];
      assert (w + tail)[1..] == w[1..] + tail;
      WordLengthStops(w[1..], tail);
    } else {
      assert w + tail == tail;
    }
  }

  /** A word followed by whitespace (or nothing) splits off as the first word. */
  lemma SplitWord(w: string, tail: string)
    requires w != [] && Unspaced(w)
    requires tail == [] || IsSpace(tail[0])
    ensures Split(w + tail) == [w] + Split(tail)
  {
    var s := w + tail;
    WordLengthStops(w, tail);
    assert s[0] == w[0];
    assert s[..|w|] == w;
    assert s[|w|..] == tail;
  }

  /** A word followed by a space: the word is split off and the space skipped. */
  lemma SplitAfterWord(w: string, rest: string)
    requires w != [] && Unspaced(w)
    ensures Split(w + [' '] + rest) == [w] + Split(rest)
  {
    assert w + [' '] + rest == w + ([' '] + rest);
    SplitWord(w, [' '] + rest);
    assert ([' '] + rest)[1..] == rest;
  }

  /** Round trip: joining words with single spaces and splitting again gives the words back. */
  lemma {:induction false} SplitJoin(words: seq<string>)
    requires forall k :: 0 <= k < |words| ==> words[k] != [] && Unspaced(words[k])
    ensures Split(Join(words)) == words
    decreases |words|
  {
    if |words| == 1 {
      SplitWord(words[0], []);
      assert words[0] + [] == words[0];
    } else if |words| > 1 {
      SplitAfterWord(words[0], Join(words[1..]));
      SplitJoin(words[1..]);
      assert words == [words[0]] + words[1..];
    }
  }

  /** Splitting distributes over any whitespace character (a tab, a newline, a space, ...):
      the words of each side, one after the other. */
  lemma {:induction false} SplitAtWhitespace(a: string, c: char, b: string)
    requires IsSpace(c)
    ensures Split(a + [c] + b) == Split(a) + Split(b)
    decreases |a|
  {
    var s := a + [c] + b;
    if a == [] {
      assert s == [c] + b;
      assert s[1..] == b;
    } else if IsSpace(a[0]) {
      assert s[0] == a[0];
      assert s[1..] == a[1..] + [c] + b;
      SplitAtWhitespace(a[1..], c, b);
    } else {
      var n := WordLength(a);
      assert s == a[..n] + (a[n..] + [c] + b);
      WordLengthStops(a[..n], a[n..] + [c] + b);
      assert s[0] == a[0];
      assert s[..n] == a[..n];
      assert s[n..] == a[n..] + [c] + b;
      SplitAtWhitespace(a[n..], c, b);
    }
  }

  /** A word with a whitespace character on each side is one of the words of the split. */
  lemma WordBetweenWhitespace(pre: string, c: char, w: string, d: char, post: string)
    requires IsSpace(c) && IsSpace(d)
    requires w != [] && Unspaced(w)
    ensures w in Split(pre + [c] + w + [d] + post)
  {
    assert pre + [c] + w + [d] + post == pre + [c] + (w + [d] + post);
    SplitAtWhitespace(pre, c, w + [d] + post);
    SplitAtWhitespace(w, d, post);
    SplitWord(w, []);
    assert w + [] == w;
  }

  /** Every character of every word comes from the split string. */
  lemma {:induction false} SplitChars(s: string)
    ensures forall k, i :: 0 <= k < |Split(s)| && 0 <= i < |Split(s)[k]| ==> Split(s)[k][i] in s
    decreases |s|
  {
    if s != [] {
      if IsSpace(s[0]) {
        SplitChars(s[1..]);
        assert forall c :: c in s[1..] ==> c in s;
      } else {
        var n := WordLength(s);
        SplitChars(s[n..]);
        assert forall c :: c in s[n..] ==> c in s;
        assert forall c :: c in s[..n] ==> c in s;
      }
    }
  }

  /** Splitting is stable: re-splitting the space-joined words of `s` yields the same words. */
  lemma SplitIsStable(s: string)
    ensures Split(Join(Split(s))) == Split(s)
  {
    SplitJoin(Split(s));
  }

  predicate IsUpper(c: char) {
    'A' <= c <= 'Z'
  }

  /** `str.lower()` on one character; only ASCII letters change (see README). */
  function LowerChar(c: char): char {
    if IsUpper(c) then (c as int + 32) as char else c
  }

  /** `s.lower()`: every upper-case letter becomes its lower-case partner, and nothing else changes. */
  function Lower(s: string): (r: string)
    ensures |r| == |s|
    ensures forall i :: 0 <= i < |r| ==> !IsUpper(r[i])
    ensures forall i :: 0 <= i < |s| && IsUpper(s[i]) ==> r[i] as int == s[i] as int + ('a' as int - 'A' as int)
    ensures forall i :: 0 <= i < |s| && !IsUpper(s[i]) ==> r[i] == s[i]
  {
    seq(|s|, i requires 0 <= i < |s| => LowerChar(s[i]))
  }

  /** Lower-casing twice is lower-casing once. */
  lemma LowerIdempotent(s: string)
    ensures Lower(Lower(s)) == Lower(s)
  {
  }

  /** `s.endswith(suffix)`. */
  predicate EndsWith(s: string, suffix: string) {
    |suffix| <= |s| && s[|s| - |suffix|..] == suffix
  }

  /** `sub in s`. */
  predicate Contains(s: string, sub: string)
    decreases |s|
  {
    (|sub| <= |s| && s[..|sub|] == sub) || (s != [] && Contains(s[1..], sub))
  }
}

=== FILE: xls.dfy ===
/** `load_xls` and `save_xls`: choosing the pandas reader or writer by the path's
    lower-cased suffix, and the exception classes their failures surface as. The
    readers and writers themselves are parameters. */
module Xls {
  import opened Outcomes
  import opened PyErrors
  import opened Text
  import opened Tables

  // ---------------------------------------------------------------------------
  // load_xls
  // ---------------------------------------------------------------------------

  /** `pd.read_csv(path)` or `pd.read_excel(path, engine=None)`. */
  datatype ReaderCall = ReadCsv(path: string) | ReadExcel(path: string)

  /** What the pandas reader does: return a table, or raise an exception with a message. */
  datatype ReadOutcome = Loaded(table: Table) | ReadRaised(kind: ErrorKind, message: string)

  /** The exceptions `load_xls` raises. */
  datatype LoadFailure =
    | NotFound                                   // FileNotFoundError
    | EmptyFile                                  // EmptyDataError, re-raised as ValueError
    | NotValid                                   // a ValueError or a format message, re-raised as ValueError
    | Reraised(kind: ErrorKind, message: string) // anything else, propagated unchanged

  function LoadKind(f: LoadFailure): ErrorKind {
    match f
    case NotFound => FileNotFoundError
    case EmptyFile => ValueError
    case NotValid => ValueError
    case Reraised(k, _) => k
  }

  function IsCsvPath(path: string): bool {
    EndsWith(Lower(path), ".csv")
  }

  /** The reader `load_xls` calls: CSV for a `.csv` suffix in any case, Excel for every other path. */
  function ReaderFor(path: string): (call: ReaderCall)
    ensures call.path == path
    ensures call.ReadCsv? <==> IsCsvPath(path)
  {
    if IsCsvPath(path) then ReadCsv(path) else ReadExcel(path)
  }

  const ExcelFormatMessage := "Excel file format cannot be determined"
  const CsvFormatMessage := "is not a valid Csv file"

  /** The except clauses of `load_xls`, tried in order. */
  function ClassifyReadError(kind: ErrorKind, message: string): (f: LoadFailure)
    ensures IsInstance(kind, FileNotFoundError) <==> f == NotFound
    ensures kind == EmptyDataError ==> f == EmptyFile
    ensures !IsInstance(kind, FileNotFoundError) ==>
              (IsInstance(kind, ValueError) || Contains(message, ExcelFormatMessage) || Contains(message, CsvFormatMessage) ==>
                 LoadKind(f) == ValueError)
    ensures f.Reraised? <==>
              && !IsInstance(kind, FileNotFoundError) && !IsInstance(kind, ValueError)
              && !Contains(message, ExcelFormatMessage) && !Contains(message, CsvFormatMessage)
    ensures f.Reraised? ==> f.kind == kind && f.message == message
  {
    if IsInstance(kind, FileNotFoundError) then NotFound
    else if kind == EmptyDataError then EmptyFile
    else if Contains(message, ExcelFormatMessage) || Contains(message, CsvFormatMessage) || IsInstance(kind, ValueError)
    then NotValid
    else Reraised(kind, message)
  }

  function LoadXls(path: string, read: ReaderCall -> ReadOutcome): (r: Result<Table, LoadFailure>)
    ensures r.Ok? <==> read(ReaderFor(path)).Loaded?
    ensures r.Ok? ==> r.value == read(ReaderFor(path)).table
    ensures r.Err? ==> r.error == ClassifyReadError(read(ReaderFor(path)).kind, read(ReaderFor(path)).message)
  {
    match read(ReaderFor(path))
    case Loaded(t) => Ok(t)
    case ReadRaised(k, m) => Err(ClassifyReadError(k, m))
  }

  // ---------------------------------------------------------------------------
  // save_xls
  // ---------------------------------------------------------------------------

  /** The `df` argument: a DataFrame, or any other Python object. */
  datatype PyValue = Frame(table: Table) | NotAFrame

  /** `df.to_csv(path, index=...)` or `df.to_excel(path, index=..., engine=...)`. */
  datatype WriterCall =
    | ToCsv(path: string, index: bool)
    | ToExcel(path: string, index: bool, engine: Option<string>)

  datatype WriteOutcome = Written | WriteRaised(kind: ErrorKind)

  /** The exceptions `save_xls` raises. */
  datatype SaveFailure =
    | NotADataFrame             // TypeError, before the path is looked at
    | UnsupportedExtension      // the ValueError raised inside the try, re-raised as IOError
    | WriteFailed(kind: ErrorKind) // any writer failure, re-raised as IOError

  function SaveKind(f: SaveFailure): ErrorKind {
    if f.NotADataFrame? then TypeError else OSError
  }

  /** The writer `save_xls` picks for a path, if any. */
  function WriterFor(path: string): (w: Option<WriterCall>)
    ensures w.Some? ==> w.value.path == path && !w.value.index
    ensures w == Some(ToCsv(path, false)) <==> EndsWith(Lower(path), ".csv")
    ensures w == Some(ToExcel(path, false, Some("openpyxl"))) <==> EndsWith(Lower(path), ".xlsx")
    ensures w == Some(ToExcel(path, false, None)) <==> EndsWith(Lower(path), ".xls")
    ensures w.None? <==> !EndsWith(Lower(path), ".csv") && !EndsWith(Lower(path), ".xlsx") && !EndsWith(Lower(path), ".xls")
  {
    var p := Lower(path);
    SuffixesExclusive(p);
    if EndsWith(p, ".csv") then Some(ToCsv(path, false))
    else if EndsWith(p, ".xlsx") then Some(ToExcel(path, false, Some("openpyxl")))
    else if EndsWith(p, ".xls") then Some(ToExcel(path, false, None))
    else None
  }

  /** The three suffixes end in different characters, so at most one of them matches. */
  lemma SuffixesExclusive(p: string)
    ensures !(EndsWith(p, ".csv") && EndsWith(p, ".xlsx"))
    ensures !(EndsWith(p, ".csv") && EndsWith(p, ".xls"))
    ensures !(EndsWith(p, ".xlsx") && EndsWith(p, ".xls"))
  {
    if EndsWith(p, ".csv") { assert p[|p| - 1] == 'v'; }
    if EndsWith(p, ".xlsx") { assert p[|p| - 1] == 'x'; }
    if EndsWith(p, ".xls") { assert p[|p| - 1] == 's'; }
  }

  /** The outcome of `save_xls` and the writer it called, if any. */
  datatype SaveRun = SaveRun(result: Result<(), SaveFailure>, call: Option<WriterCall>)

  function SaveXls(df: PyValue, path: string, write: (WriterCall, Table) -> WriteOutcome): (r: SaveRun)
    ensures df.NotAFrame? ==> r == SaveRun(Err(NotADataFrame), None)
    ensures df.Frame? ==> r.call == WriterFor(path)
    ensures df.Frame? && r.call.None? ==> r.result == Err(UnsupportedExtension)
    ensures r.result.Ok? <==> df.Frame? && r.call.Some? && write(r.call.value, df.table) == Written
    ensures r.result.Err? && df.Frame? ==> SaveKind(r.result.error) == OSError
  {
    match df
    case NotAFrame => SaveRun(Err(NotADataFrame), None)
    case Frame(t) =>
      match WriterFor(path)
      case None => SaveRun(Err(UnsupportedExtension), None)
      case Some(call) =>
        match write(call, t)
        case Written => SaveRun(Ok(()), Some(call))
        case WriteRaised(k) => SaveRun(Err(WriteFailed(k)), Some(call))
  }

  lemma {:induction false} DispatchIgnoresCase(a: string, b: string)
    requires Lower(a) == Lower(b)
    ensures ReaderFor(a).ReadCsv? == ReaderFor(b).ReadCsv?
    ensures WriterFor(a).Some? == WriterFor(b).Some?
    ensures WriterFor(a).Some? ==> WriterFor(a).value.ToCsv? == WriterFor(b).value.ToCsv?
                                   && (WriterFor(a).value.ToExcel? ==> WriterFor(a).value.engine == WriterFor(b).value.engine)
  {
  }

  /** The self-test expects a ValueError for "unsupported.ext"; the catch-all turns it into IOError. */
  lemma UnsupportedExtensionIsIOError(t: Table, write: (WriterCall, Table) -> WriteOutcome)
    ensures SaveXls(Frame(t), "unsupported.ext", write).result == Err(UnsupportedExtension)
    ensures SaveKind(SaveXls(Frame(t), "unsupported.ext", write).result.error) == OSError
  {
    var p := Lower("unsupported.ext");
    assert p[|p| - 1] == 't';
  }

  /** "OUT.CSV" and "out.csv" pick the same CSV writer. */
  lemma UpperCaseSuffixSelectsCsv()
    ensures WriterFor("OUT.CSV") == Some(ToCsv("OUT.CSV", false))
    ensures ReaderFor("DATA.CSV") == ReadCsv("DATA.CSV")
  {
    assert Lower("OUT.CSV") == "out.csv";
    assert Lower("DATA.CSV") == "data.csv";
  }

  /** A file `save_xls` writes is read back by the matching reader: CSV exactly when written as CSV. */
  lemma ReaderMatchesWriter(path: string)
    requires WriterFor(path).Some?
    ensures ReaderFor(path).ReadCsv? <==> WriterFor(path).value.ToCsv?
    ensures ReaderFor(path).path == WriterFor(path).value.path
  {
  }
}
